=== FILE: README.md ===
# conchat message log, delivery cursors and option checks in Dafny

conchat is a small threaded TCP chat server and client written in C. Both
sides keep a **message log** (messagelog.h). It is one block of `size + 1`
bytes used as a circular byte queue, delimited by the pointers `data`,
`begin`, `end` and `dataend`:

- A push (`writeMessageLog`) that does not fit overwrites the oldest bytes.
- `readMessageLog` copies the queue without removing it.
- `removeMessageLog` pops it.
- `readDelta` copies whatever lies between a caller-held position and `end`.

On the server, each connection has a receive duty and a send duty. The receive duty appends what the client sends to the shared log. The send duty first sends the whole log as a C string. It then keeps a cursor, `sendDelta`, and on every wake-up sends the `msglen` bytes `readDelta` reports, then moves the cursor to `end`. Those are fewer than the unread bytes when they cross `dataend` or when write() sends short (see Findings). The client keeps its own log and its own cursor, `recvDelta`, in the same way. Both programs validate their command-line options before they touch a socket. A failed `getsrvopts` or `getcliopts` ends the program, but `main` reports a failed `setsrvopts` or `setcliopts` and still goes on to create the socket (server.c:58-60, client.c:49-51).

This project models that core as pure functions over immutable values:

- **`MessageLog`** (messagelog.dfy): the log as `Log(data, begin, end)`, where the pointers are offsets from `data` and `dataend` is `|data|`. Each operation mirrors the C branch structure, including the quirks of the code as written:
  - The value returned after a split copy is only the second part's length.
  - The split test of the normal case uses `len`, not the clamped count.
  - A split push whose second part ends exactly on `begin` empties the queue.
- **`LogLaws`** (log_laws.dfy): what a push does to the queue's contents. It keeps the last `size` bytes of the old contents and the new bytes taken together. Any position that is not overtaken sees exactly the pushed bytes appended.
- **`CStrings`** (cstrings.dfy): a C string as the bytes before the first NUL.
- **`ServerSession`** and **`ClientSession`** (server_session.dfy, client_session.dfy): the log steps of one connection, as sequential steps. Socket reads and writes appear as their results.
- **`CommandLine`**, **`ServerOptions`** and **`ClientOptions`** (command_line.dfy, server_options.dfy, client_options.dfy): `getsrvopts`, `getcliopts` and the sanity checks of `setcliopts`. They work over an already tokenised option list, with the value `atoi` produced given as an integer and an address given as the bytes of its argument.
- **`Scenarios`** (scenarios.dfy): the server's start-up greeting, and one delivery that crosses `dataend`.
- **`Limits`** (limits.dfy): the constants of server.h and client.h.

## Model

| member | source | states |
|---|---|---|
| MessageLog.Init | messagelog.h:51-57 | a log created with `size` has `size + 1` cells, capacity `size`, `begin == end`, and holds nothing |
| MessageLog.Write | messagelog.h:63-121 | the push consumes `min(len, size)` bytes. `end` advances by that count around the ring. The value returned is that count unless the copy was split, in which case it is only the second part's length. `begin` moves only when older bytes are overwritten, and then to `end + 1` with the queue full. A split landing exactly on `begin` leaves the queue empty. A zero-length push changes nothing |
| MessageLog.CellsLayout | messagelog.h:72-117 | after the copies of a push, a split copy leaves the second part at `data`, the untouched cells, then the first part up to `dataend`; a copy in one part leaves the consumed bytes at `end` and every other cell as it was |
| LogLaws.WriteKeeps | messagelog.h:63-121 | after a push the queue holds the last `size` bytes of the old queue and the consumed bytes taken together (old queue first). Two boundary cases differ: the push that lands on `begin` leaves the queue empty, and the one that fills the last cell from `begin == 0` holds `size + 1` bytes |
| LogLaws.AppendedSpan | messagelog.h:63-121 | seen from any position whose unread bytes plus the push still fit in the block, a push appends exactly its leading consumed bytes |
| LogLaws.NoMissedBytes | messagelog.h:63-121 | the same holds for a sequence of pushes: the bytes from the position are the old ones followed by all messages in order |
| MessageLog.ReadDelta | messagelog.h:252-287 | with `delta == end` it returns 0 and writes a NUL at `buf[0]`. Otherwise it copies the leading `min(len, unread)` bytes from `delta` in queue order (all of them when `len` is 0) and leaves the rest of the buffer alone. The value returned is that count unless the copy crosses `dataend`, when it is the count less the part before `dataend`. The log is not changed |
| MessageLog.Read | messagelog.h:170-206 | `readMessageLog` is `readDelta` from `begin`: an empty queue gives 0 and a NUL; otherwise the leading `min(len, used)` bytes of the queue, with the same short return value when the copy is split |
| MessageLog.ReadDeltaIntended | messagelog.h:252-287 | the corrected `readDelta`: same bytes copied, and the value returned is the number of bytes copied, all unread bytes when `len` is 0 |
| MessageLog.Remove | messagelog.h:126-145 | on an empty queue it returns 0 and writes a NUL. On an unwrapped queue the popped bytes and the remaining queue together make up the old queue. A count of 0 pops all but the last byte; any other count is cut to the queue |
| CStrings.CStringStopsAtNul | server.h:232-236 | a buffer whose bytes up to a NUL are `t` reads, as a C string, the same as `t` |
| CStrings.CStringOfText | server.h:232-236 | text without NUL reads as itself |
| ServerSession.ReceiveClientMessage | server.h:245-276 | a read result of 0 or less ends the connection and leaves the log alone; otherwise exactly the bytes read are appended at the old `end` |
| ServerSession.Connect | server.h:223-242 | the history sent to a new client is the queue, cut to 1023 bytes and at its first NUL. The cursor is then the log's `end` (server.h:309-312), so nothing already sent is unread |
| ServerSession.SnapshotHolds | server.h:224-232 | the zeroed 1024-byte buffer that `sendWholeLog` fills holds the queue, cut to 1023 bytes, followed by a NUL |
| ServerSession.Deliver | server.h:328-343 | a delivery happens exactly when there are unread bytes and write() reports a positive count. It sends the leading `wrote` unread bytes, where write() returns at most the `msglen` that `readDelta` gave. It moves the cursor to `end` in any case, so unread bytes a short write did not cover are never sent. Nothing unread, or a failed write, stops the loop |
| ServerSession.OutgoingIsReadDelta | server.h:330 | the `msglen` handed to write() is what `readDelta` returns with count 0: every unread byte, or, when they cross `dataend`, only those stored from `data` on |
| ServerSession.DeliverAfterPushes | server.h:328-343 | after pushes made while the cursor sat at `end`, the unread bytes are the messages in order. A delivery sends the leading `wrote` of them and moves the cursor to `end`. A write of all `msglen` bytes sends every message when they do not cross `dataend` or the cursor sat on `dataend`; when they cross `dataend` from a cursor below it, `msglen` is shorter than the messages, so some are never sent |
| ServerSession.DeliverIntended | server.h:328-343 | with the corrected count, `msglen` is every unread byte: a delivery sends the leading `wrote` of them, and all of them when write() sends all it was asked for |
| ServerSession.DeliverAfterPushesIntended | server.h:328-343 | with the corrected count, a delivery after pushes whose write() sends all `msglen` bytes sends exactly the messages in order: nothing missed, nothing repeated. A shorter write sends their leading bytes |
| ClientSession.Connected | client.c:74-81 | after the history is read into the zeroed 1024-byte buffer and `recvDelta` is set, the client is synced with nothing unread. The printed history is the queue, cut to 1023 bytes and at its first NUL, and every cell after the copied bytes stays NUL |
| ClientSession.HistoryBuffer | client.c:75-81 | the queue read with count 0 into a zeroed 1024-byte buffer, last byte forced to NUL, holds the queue's first 1023 bytes followed by NULs |
| ClientSession.ReadMessage | client.h:173-202 | a read result of 0 or less reports the server gone and leaves the log alone; otherwise exactly the bytes read are appended at the old `end` |
| ClientSession.ReceiveStep | client.h:238-257 | a failed read quits. Otherwise the cursor ends at `end` and the shown buffer is 1024 bytes ending in NUL. From a synced cursor, the buffer holds exactly the chunk just received followed by NULs |
| ClientSession.UnseenHolds | client.h:248-255 | unread bytes that fit before the forced NUL are copied in full into the zeroed buffer, and every later cell stays NUL |
| CommandLine.CheckNumber | server.h:99-112 | a numeric argument passes exactly when it lies in 1..max. A 0, which is also what atoi makes of non-numbers, is flawed; a value below 0 or above max is out of range |
| CommandLine.AddressFits | server.h:87-91 | the address test (strncpy into MAX_ADDR_LEN, then look at the last cell) passes exactly for addresses of at most 255 bytes |
| ServerOptions.CheckOption | server.h:81-168 | `-a` passes for addresses under 256 bytes, `-p` for 1..65535, `-t` for 1..255, `-l` for 1..1023. An option missing its argument fails. `-T` and `-d` pass; an unknown option fails |
| ServerOptions.GetServerOptions | server.h:78-171 | returns success exactly when every option passes. Otherwise it reports the reason of the first option that fails. On success every value lies in its range (0 meaning not given); threadpool is set iff `-T` was given and debug mode iff `-d` was |
| ServerOptions.LastOptionWins | server.h:87-155 | when an option is repeated, the value stored is the last one given |
| ServerOptions.UnsetKeepsStart | server.c:52-53 | a value no option sets keeps the zero `main` cleared it to |
| ClientOptions.CheckOption | client.h:57-99 | `-a` passes for addresses under 256 bytes and `-p` for 1..65535; an option missing its argument fails; `-d` passes; an unknown option fails |
| ClientOptions.GetClientOptions | client.h:54-102 | returns success exactly when every option passes; otherwise it reports the first failing option's reason. On success the port lies in 0..65535 and the address is under 256 bytes |
| ClientOptions.LastOptionWins | client.h:58-90 | when an option is repeated, the value stored is the last one given |
| ClientOptions.UnsetKeepsStart | client.c:41-43 | a value no option sets keeps the zero `main` cleared it to |
| ClientOptions.SetClientOptions | client.h:110-118 | a port of 0 is refused first, then an address that is empty or starts with NUL (the test on its first byte); only a non-zero port with an address whose first byte is not NUL goes on to resolution, unchanged |
| ClientOptions.ParseThenSetup | client.h:110-118 | after a successful parse, the port is reported missing exactly when no `-p` was given. Resolution is attempted exactly when `-p` was given and the last `-a` given is not empty, since a parsed address holds no NUL |
| Scenarios.StartupGreeting | server.c:86-92 | after the log is created with size 1024 (1025 cells) and the 63-byte greeting is written, the queue is the greeting. The first client is sent exactly the greeting, with its cursor at 63 |
| Scenarios.ShortDelivery | messagelog.h:275-286 | with `end` four cells before `dataend`, ten pushed bytes make `msglen` 6, so even a write of all `msglen` bytes sends only the first six. With the corrected count, a full write sends all ten |

## Findings

| source | as written | input that shows it | evidently intended | confidence | as-written member | corrected member |
|---|---|---|---|---|---|---|
| messagelog.h:286 | `readDelta` returns `rem`, which the split copy at line 277 has already reduced to the part copied from `data`; `sendThread` then writes only that many bytes (server.h:330-336) | a 1024-byte log with `begin` at 0 and `end` at 1021: a 10-byte message from another client is stored as 4 + 6 bytes, and the next delivery writes only its first 6 bytes | return `ret`, the number of bytes copied, as the variable's comment says, so that every unread byte is sent | high (not executed) | MessageLog.ReadDelta, Scenarios.ShortDelivery | MessageLog.ReadDeltaIntended, ServerSession.DeliverAfterPushesIntended |

The same `return rem` pattern appears at messagelog.h:120 (`writeMessageLog`) and messagelog.h:205 (`readMessageLog`). Their callers ignore those values or use them only for a debug message. The model therefore exposes them in the contracts of `MessageLog.Write` and `MessageLog.Read` and does not correct them.

A short write() also loses bytes. Any positive result moves `sendDelta` to `end` (server.h:336-341), so the bytes it did not cover are never sent; the todo list at server.h:17 names the missing send loop. `ServerSession.Deliver` and `ServerSession.DeliverIntended` both keep that behaviour and correct only the count.

`removeMessageLog` with a count of 0 pops all but the last byte of an unwrapped queue (messagelog.h:138), where the comment at messagelog.h:124 promises the whole queue. No caller uses the function, so the model states this in the contract of `MessageLog.Remove` and does not correct it.

## Left out

- Concurrency is not modelled. This covers the mutexes, the condition variable that wakes the send threads, `pthread_cancel`/`pthread_join`, the cleanup handler and thread creation. Each step is modelled as running alone.
- A cursor that a writer laps is not detected by the code, and no policy for it is invented. The race between a delivery and the later `sendDelta = srvmsglog.end` (server.h:338-341) is part of the concurrency left out.
- Socket calls, `printf`, `scanf`, `getopt`, `atoi` and `malloc` are not modelled. Read and write results are parameters. The option list arrives tokenised with `atoi`'s value given. The bytes `malloc` returns are a parameter of `MessageLog.Init`.
- `setsrvopts` and the address resolution in `setcliopts` (server.h:173-220, client.h:120-156) are name-resolution I/O and are left out. Only the two sanity checks of `setcliopts` are modelled.
- The entry points `main` (server.c, client.c) are left out, apart from the start-up seeding, the zeroing of the option structs and the client's display of the history it received.
- Also left out: `getWholeLog`, `sendMessageToServer`, the client's `sendThread`, the server's `recvThread`, and `freeMessageLog`.
- The loop in `sendWholeLog` that keeps writing until the C string is sent is left out. The history is modelled as the whole C string.
- The wrapped branch of `removeMessageLog` (messagelog.h:146-165) is left out. Its second copy overwrites the start of the caller's buffer, and no caller uses the function. `MessageLog.Remove` requires `begin <= end`.
- MessageLog.Write: requires `WriteDefined`. This excludes the two pushes whose pointer arithmetic leaves the block: a split with a negative second count (an empty queue at `data` and a push longer than the block), and an overwriting push in the wrapped case that ends exactly at `dataend`, which sets `begin` one past it (messagelog.h:112).
- MessageLog.ReadDelta: requires the copied count to fit the caller's buffer. The code does not check this.
- ServerSession.Deliver: requires at most MSG_LEN unread bytes. Reading more with a count of 0 overruns the 256-byte `newmsga` buffer (server.h:293, 330).
- ServerSession.ReceiveClientMessage: on success `receiveClientMessage` runs off its end without a `return`, and `recvThread` compares that undefined value with -1 (server.h:276, 367). The model takes a successful read as never reported as -1.
- ClientSession.ReadMessage: on success `readMessage` runs off its end without a `return`, and `recvThread` compares that undefined value with -1 (client.h:202, 242). The model takes a successful read as never reported as -1.
- ClientSession.ReceiveStep: rests on the same reading of `readMessage`'s missing return value, so a successful read never quits the thread.
- ClientSession.Connected: requires the queue to fit the 1024-byte `wholelog` buffer. `readMessageLog` with count 0 copies the whole queue, which can hold 1025 bytes (client.c:75-77), and nothing checks this.
- ServerSession.ReceiveClientMessage: the write of `message[MSG_LEN]` one past the allocation (server.h:267) is not modelled.
- ServerOptions.GetServerOptions, ClientOptions.GetClientOptions: a refused parse reports only the reason, not the partly filled struct, because `main` exits on it (server.c:52-55, client.c:43-46).
- ServerOptions.GetServerOptions and ClientOptions.GetClientOptions treat an option without its argument as the code's `!optarg` test does. getopt itself reports that case as `?`, which is refused too.
- The `listen` backlog choice `maxConnections ?: MAX_CONNECTIONS` (server.c:78) is socket setup and is left out.
- Integer widths are not modelled: lengths are bounded by MSG_LEN and MSG_LOG_LEN, far below `int` limits, and `atoi`'s value is taken as given.

=== FILE: client_options.dfy ===
/**
 * The client's options (client.h): `getcliopts` parses the option string
 * "a:p:d" the way the server parses its own, and `setcliopts` refuses to go
 * on until both a port and an address have been given.
 */
module ClientOptions {
  import opened Limits
  import opened CommandLine
  import opened MessageLog

  /** One option as getopt hands it over. */
  datatype ClientOption =
    | ServerAddress(addr: Arg<seq<byte>>)   // -a
    | ServerPort(port: Arg<int>)         // -p
    | Debug                              // -d
    | Unknown                            // getopt's '?'

  /** `struct clientopts` together with the global `debug_mode`. */
  datatype ClientOpts = ClientOpts(connectPort: int, addr: seq<byte>, debug: bool)

  /** What `main` starts from: the zeroed struct and `debug_mode` 0. */
  const Defaults: ClientOpts := ClientOpts(0, [], false)

  /** An argument handed to the program is a C string. */
  predicate WellFormed(o: ClientOption) {
    o.ServerAddress? && o.addr.Given? ==> IsCText(o.addr.value)
  }

  predicate AllWellFormed(opts: seq<ClientOption>) {
    forall i :: 0 <= i < |opts| ==> WellFormed(opts[i])
  }

  /** The check one option has to pass. */
  function CheckOption(o: ClientOption): (c: Check)
    requires WellFormed(o)
    ensures o.ServerAddress? ==> (c == Pass <==> o.addr.Given? && |o.addr.value| < MaxAddrLen)
    ensures o.ServerPort? ==> (c == Pass <==> o.port.Given? && 1 <= o.port.value <= MaxPort)
    ensures o.ServerPort? && o.port.Given? && o.port.value == 0 ==> c == Fail(NumberFlawed('p'))
    ensures o.ServerPort? && o.port.Given? && (o.port.value < 0 || MaxPort < o.port.value) ==>
      c == Fail(NumberOutOfRange('p'))
    ensures o.Debug? ==> c == Pass
    ensures o.Unknown? ==> c == Fail(InvalidOption)
  {
    match o
    case ServerAddress(Absent) => Fail(MissingArgument)
    case ServerAddress(Given(s)) => AddressVerdict(s)
    case ServerPort(Absent) => Fail(MissingArgument)
    case ServerPort(Given(v)) => NumberVerdict(v, MaxPort, 'p')
    case Debug => Pass
    case Unknown => Fail(InvalidOption)
  }

  /** What a passing option stores. */
  function Record(o: ClientOption, acc: ClientOpts): ClientOpts
    requires WellFormed(o) && CheckOption(o) == Pass
  {
    match o
    case ServerAddress(s) => acc.(addr := s.value)
    case ServerPort(v) => acc.(connectPort := v.value)
    case Debug => acc.(debug := true)
  }

  /** The two settings an option with an argument can set. */
  datatype Setting = AddrSetting | PortSetting

  predicate Sets(o: ClientOption, f: Setting) {
    match f
    case AddrSetting => o.ServerAddress?
    case PortSetting => o.ServerPort?
  }

  /** Option `i` is the last one that sets `f`. */
  predicate LastSetter(opts: seq<ClientOption>, i: int, f: Setting) {
    && 0 <= i < |opts|
    && Sets(opts[i], f)
    && forall j :: i < j < |opts| ==> !Sets(opts[j], f)
  }

  predicate Unset(opts: seq<ClientOption>, f: Setting) {
    forall j :: 0 <= j < |opts| ==> !Sets(opts[j], f)
  }

  /** The option that stores `f`'s value as it stands in `s`. */
  function Setter(s: ClientOpts, f: Setting): ClientOption {
    match f
    case AddrSetting => ServerAddress(Given(s.addr))
    case PortSetting => ServerPort(Given(s.connectPort))
  }

  /** Where getopt's loop ends. */
  datatype Outcome = Accepted(opts: ClientOpts) | Refused(why: Refusal)

  /** Option `i` is the first that fails, and fails for `why`. */
  predicate FirstFailure(opts: seq<ClientOption>, i: int, why: Refusal)
    requires AllWellFormed(opts)
  {
    && 0 <= i < |opts|
    && CheckOption(opts[i]) == Fail(why)
    && forall j :: 0 <= j < i ==> CheckOption(opts[j]) == Pass
  }

  /** The getopt loop from `acc` on. */
  function Parse(opts: seq<ClientOption>, acc: ClientOpts): (r: Outcome)
    requires AllWellFormed(opts)
    // 1 exactly when every option passes its check
    ensures r.Accepted? <==> forall i :: 0 <= i < |opts| ==> CheckOption(opts[i]) == Pass
    // otherwise the reason is that of the first option that fails
    ensures r.Refused? ==> exists i :: FirstFailure(opts, i, r.why)
    ensures r.Accepted? && 0 <= acc.connectPort <= MaxPort ==> 0 <= r.opts.connectPort <= MaxPort
    ensures r.Accepted? && |acc.addr| < MaxAddrLen ==> |r.opts.addr| < MaxAddrLen
    ensures r.Accepted? ==> (r.opts.debug <==> acc.debug || Debug in opts)
    decreases |opts|
  {
    if opts == [] then Accepted(acc)
    else
      match CheckOption(opts[0])
      case Fail(why) =>
        assert FirstFailure(opts, 0, why);
        Refused(why)
      case Pass =>
        var r := Parse(opts[1..], Record(opts[0], acc));
        assert forall i :: 1 <= i < |opts| ==> opts[i] == opts[1..][i - 1];
        assert r.Refused? ==> exists i :: FirstFailure(opts, i, r.why) by {
          if r.Refused? {
            var k :| FirstFailure(opts[1..], k, r.why);
            assert FirstFailure(opts, k + 1, r.why);
          }
        }
        assert opts == [opts[0]] + opts[1..];
        r
  }

  /** `getcliopts`: parse from the defaults `main` sets up. */
  function GetClientOptions(opts: seq<ClientOption>): (r: Outcome)
    requires AllWellFormed(opts)
    ensures r.Accepted? <==> forall i :: 0 <= i < |opts| ==> CheckOption(opts[i]) == Pass
    ensures r.Refused? ==> exists i :: FirstFailure(opts, i, r.why)
    ensures r.Accepted? ==> 0 <= r.opts.connectPort <= MaxPort && |r.opts.addr| < MaxAddrLen
    ensures r.Accepted? ==> (r.opts.debug <==> Debug in opts)
  {
    Parse(opts, Defaults)
  }

  /** Of several options setting the same value, the last one wins. */
  lemma {:induction false} LastOptionWins(opts: seq<ClientOption>, acc: ClientOpts, i: int, f: Setting)
    requires AllWellFormed(opts) && Parse(opts, acc).Accepted? && LastSetter(opts, i, f)
    ensures opts[i] == Setter(Parse(opts, acc).opts, f)
    decreases |opts|
  {
    var next := Record(opts[0], acc);
    assert forall k :: 1 <= k < |opts| ==> opts[k] == opts[1..][k - 1];
    if i == 0 {
      assert Unset(opts[1..], f);
      UnsetKeepsStart(opts[1..], next, f);
    } else {
      assert LastSetter(opts[1..], i - 1, f);
      LastOptionWins(opts[1..], next, i - 1, f);
    }
  }

  /** A value no option sets keeps what it started with. */
  lemma {:induction false} UnsetKeepsStart(opts: seq<ClientOption>, acc: ClientOpts, f: Setting)
    requires AllWellFormed(opts) && Parse(opts, acc).Accepted? && Unset(opts, f)
    ensures Setter(Parse(opts, acc).opts, f) == Setter(acc, f)
    decreases |opts|
  {
    if opts != [] {
      assert !Sets(opts[0], f);
      assert forall k :: 1 <= k < |opts| ==> opts[k] == opts[1..][k - 1];
      UnsetKeepsStart(opts[1..], Record(opts[0], acc), f);
    }
  }

  /** What `setcliopts` decides before it resolves the address. */
  datatype Setup = MissingPort | MissingAddress | Resolve(port: int, addr: seq<byte>)

  /** `setcliopts`' sanity checks: a port of 0 means -p was never given, an
      address whose first byte is NUL means -a was never given; the port is
      tested first. */
  function SetClientOptions(o: ClientOpts): (s: Setup)
    ensures s == MissingPort <==> o.connectPort == 0
    // the address counts as missing when its first byte is NUL, as a C string would
    ensures s == MissingAddress <==> o.connectPort != 0 && (o.addr == [] || o.addr[0] == 0)
    ensures s.Resolve? <==> o.connectPort != 0 && o.addr != [] && o.addr[0] != 0
    ensures s.Resolve? ==> s.port == o.connectPort && s.addr == o.addr
  {
    if o.connectPort == 0 then MissingPort
    else if o.addr == [] || o.addr[0] == 0 then MissingAddress
    else Resolve(o.connectPort, o.addr)
  }

  /** Options that parse go on to resolution exactly when a port was given
      and the last address given is not empty. */
  lemma ParseThenSetup(opts: seq<ClientOption>)
    requires AllWellFormed(opts) && GetClientOptions(opts).Accepted?
    ensures SetClientOptions(GetClientOptions(opts).opts) == MissingPort <==> Unset(opts, PortSetting)
    ensures SetClientOptions(GetClientOptions(opts).opts).Resolve? <==>
      && !Unset(opts, PortSetting)
      && exists i :: LastSetter(opts, i, AddrSetting) && opts[i] != ServerAddress(Given([]))
  {
    var r := GetClientOptions(opts).opts;
    if Unset(opts, PortSetting) {
      UnsetKeepsStart(opts, Defaults, PortSetting);
    } else {
      var p := LastIndex(opts, PortSetting);
      LastOptionWins(opts, Defaults, p, PortSetting);
      assert CheckOption(opts[p]) == Pass;
    }
    if Unset(opts, AddrSetting) {
      UnsetKeepsStart(opts, Defaults, AddrSetting);
    } else {
      var a := LastIndex(opts, AddrSetting);
      LastOptionWins(opts, Defaults, a, AddrSetting);
      // a parsed address is C text, so a non-empty one does not start with NUL
      assert WellFormed(opts[a]);
      assert r.addr != [] ==> r.addr[0] != 0;
    }
  }

  /** The last option setting `f`, when there is one. */
  function LastIndex(opts: seq<ClientOption>, f: Setting): (i: int)
    requires !Unset(opts, f)
    ensures LastSetter(opts, i, f)
  {
    var k := |opts| - 1;
    if Sets(opts[k], f) then k
    else
      assert !Unset(opts[..k], f) by {
        var j :| 0 <= j < |opts| && Sets(opts[j], f);
        assert opts[..k][j] == opts[j];
      }
      var i := LastIndex(opts[..k], f);
      assert opts[..k][i] == opts[i];
      i
  }
}

=== FILE: client_session.dfy ===
/**
 * The log side of the chat client (client.h): the receive thread appends
 * each chunk the server sends to the client's own log, then shows what lies
 * between its cursor (`recvDelta`) and `end`, and moves the cursor to `end`.
 * Reads on the socket are given as their results.
 */
module ClientSession {
  import opened Limits
  import opened MessageLog
  import opened LogLaws
  import opened CStrings

  /** The client's log, created with MSG_LOG_LEN (client.c:71). */
  predicate ClientLog(log: Log) {
    Valid(log) && Capacity(log) == MsgLogLen
  }

  /** The receive thread's state: the log and its cursor. */
  datatype Client = Client(log: Log, recvDelta: nat)

  /** The cursor sits at the log's `end`: everything in the log has been shown. */
  predicate Synced(c: Client) {
    ClientLog(c.log) && c.recvDelta == c.log.end
  }

  datatype Joined = Joined(client: Client, shown: seq<byte>)

  /** What `main` does once `getWholeLog` has filled the new log: the queue
      is read with count 0 into the zeroed MSG_LOG_LEN buffer `wholelog`,
      `recvDelta` is set to `end`, and the buffer's last byte is forced to
      NUL before it is printed. */
  function Connected(log: Log): (j: Joined)
    requires ClientLog(log) && |Content(log)| <= MsgLogLen
    // the client is synced: nothing in the log is left unread
    ensures Synced(j.client) && j.client.log == log && Span(log, j.client.recvDelta) == []
    // the printed history is the queue, cut one byte short of the buffer and
    // at its first NUL; every cell after the copied bytes stays NUL
    ensures
      var k := Min(|Content(log)|, MsgLogLen - 1);
      && |j.shown| == MsgLogLen && j.shown[..k] == Content(log)[..k]
      && (forall i :: k <= i < MsgLogLen ==> j.shown[i] == 0)
      && CString(j.shown) == CString(Content(log)[..k])
  {
    var zeros := seq(MsgLogLen, _ => 0 as byte);
    var shown := Read(log, zeros, 0).buf[MsgLogLen - 1 := 0];
    HistoryBuffer(log, zeros);
    Joined(Client(log, log.end), shown)
  }

  /** The history buffer: the queue read into zeros, its last byte forced to
      NUL, holds the queue's first MSG_LOG_LEN - 1 bytes and then NULs. */
  lemma HistoryBuffer(log: Log, zeros: seq<byte>)
    requires ClientLog(log) && |zeros| == MsgLogLen && |Content(log)| <= MsgLogLen
    requires forall i :: 0 <= i < |zeros| ==> zeros[i] == 0
    ensures
      var k := Min(|Content(log)|, MsgLogLen - 1);
      var shown := Read(log, zeros, 0).buf[MsgLogLen - 1 := 0];
      && |shown| == MsgLogLen && shown[..k] == Content(log)[..k]
      && (forall i :: k <= i < MsgLogLen ==> shown[i] == 0)
      && CString(shown) == CString(Content(log)[..k])
  {
    var b := Read(log, zeros, 0).buf;
    var k := Min(|Content(log)|, MsgLogLen - 1);
    var shown := b[MsgLogLen - 1 := 0];
    ReadIntoZeros(log, zeros);
    assert shown[..k] == b[..k] == b[..|Content(log)|][..k];
    CStringStopsAtNul(shown, Content(log)[..k]);
  }

  /** The whole queue read with count 0 into a zeroed buffer that holds it:
      the queue, then NULs. */
  lemma ReadIntoZeros(log: Log, zeros: seq<byte>)
    requires Valid(log) && 0 < |zeros| && |Content(log)| <= |zeros|
    requires forall i :: 0 <= i < |zeros| ==> zeros[i] == 0
    ensures
      var b := Read(log, zeros, 0).buf;
      var m := |Content(log)|;
      && |b| == |zeros| && b[..m] == Content(log)
      && forall i :: m <= i < |b| ==> b[i] == 0
  {
    var b := Read(log, zeros, 0).buf;
    if log.begin == log.end {
      assert forall i :: 1 <= i < |b| ==> b[i] == b[1..][i - 1];
    } else {
      var m := |Content(log)|;
      assert forall i :: m <= i < |b| ==> b[i] == b[m..][i - m];
    }
  }

  datatype Received = ServerGone | Stored(log: Log)

  /** `readMessage`: `got` is what read() returned into the MSG_LEN buffer
      `readbuf`. Nothing positive reports the server gone and leaves the log
      alone; otherwise exactly the `got` bytes read are appended. */
  function ReadMessage(log: Log, got: int, readbuf: seq<byte>): (r: Received)
    requires ClientLog(log) && |readbuf| == MsgLen && got <= MsgLen
    requires got > 0 ==> WriteDefined(log, got)
    ensures r.ServerGone? <==> got <= 0
    ensures r.Stored? ==> ClientLog(r.log) && Span(r.log, log.end) == readbuf[..got]
  {
    if got <= 0 then ServerGone
    else
      var r := Write(log, readbuf, got).log;
      AppendedSpan(log, readbuf, got, log.end);
      Stored(r)
  }

  /** What the receive thread shows: the bytes from `from` copied into a
      zeroed MSG_LOG_LEN buffer whose last byte is then forced to NUL. */
  function Unseen(log: Log, from: nat, zeros: seq<byte>): (shown: seq<byte>)
    requires ClientLog(log) && from <= |log.data| && |zeros| == MsgLogLen
    ensures |shown| == MsgLogLen && shown[MsgLogLen - 1] == 0
  {
    ReadDelta(log, zeros, MsgLogLen, from).buf[MsgLogLen - 1 := 0]
  }

  /** Unread bytes that fit before the forced NUL are shown in full, and the
      rest of the buffer stays NUL. */
  lemma UnseenHolds(log: Log, from: nat, zeros: seq<byte>)
    requires ClientLog(log) && from <= |log.data| && |zeros| == MsgLogLen
    requires forall i :: 0 <= i < |zeros| ==> zeros[i] == 0
    requires |Span(log, from)| < MsgLogLen
    ensures
      var k := |Span(log, from)|;
      var shown := Unseen(log, from, zeros);
      && shown[..k] == Span(log, from)
      && forall i :: k <= i < MsgLogLen ==> shown[i] == 0
  {
    var c := ReadDelta(log, zeros, MsgLogLen, from);
    var k := |Span(log, from)|;
    if from == log.end {
      assert forall i :: 1 <= i < MsgLogLen ==> c.buf[i] == c.buf[1..][i - 1];
    } else {
      assert forall i :: k <= i < MsgLogLen ==> c.buf[i] == c.buf[k..][i - k];
    }
  }

  datatype Step = Quit | Shown(next: Client, newmsg: seq<byte>)

  /** One pass of the client's `recvThread` loop: `readMessage`, then
      `readDelta` of up to MSG_LOG_LEN bytes from `recvDelta` into a zeroed
      buffer whose last byte is then forced to NUL, then `recvDelta` is set
      to `end`. A failed read ends the thread. */
  function ReceiveStep(c: Client, got: int, readbuf: seq<byte>): (r: Step)
    requires ClientLog(c.log) && c.recvDelta <= |c.log.data|
    requires |readbuf| == MsgLen && got <= MsgLen
    requires got > 0 ==> WriteDefined(c.log, got)
    ensures r.Quit? <==> got <= 0
    ensures r.Shown? ==> Synced(r.next) && |r.newmsg| == MsgLogLen && r.newmsg[MsgLogLen - 1] == 0
    // from a synced state, exactly the bytes just received are shown, the rest of the buffer NUL
    ensures r.Shown? && Synced(c) ==>
      && r.newmsg[..got] == readbuf[..got]
      && forall i :: got <= i < MsgLogLen ==> r.newmsg[i] == 0
  {
    match ReadMessage(c.log, got, readbuf)
    case ServerGone => Quit
    case Stored(log) =>
      var zeros := seq(MsgLogLen, _ => 0 as byte);
      var shown := Unseen(log, c.recvDelta, zeros);
      assert Synced(c) ==>
        shown[..got] == readbuf[..got] && (forall i :: got <= i < MsgLogLen ==> shown[i] == 0)
      by {
        if Synced(c) {
          UnseenHolds(log, c.recvDelta, zeros);
        }
      }
      Shown(Client(log, log.end), shown)
  }
}

=== FILE: command_line.dfy ===
/**
 * The checks the server's `getsrvopts` and the client's `getcliopts` apply
 * to option arguments. Option letters arrive already split by getopt; a
 * numeric argument arrives as the value atoi made of it, and a text argument
 * as the bytes of its `argv` entry.
 */
module CommandLine {
  import opened Limits
  import opened MessageLog

  /** An option's argument: getopt's `optarg`, which may be missing. */
  datatype Arg<T> = Given(value: T) | Absent

  /** The verdict on a numeric argument. */
  datatype NumberCheck = InRange | Flawed | OutOfRange

  /** The test applied to `-p`, `-t` and `-l`: atoi's 0, which is also what it
      makes of text that is not a number, is flawed; a value below 0 or above
      `max` is out of range. */
  function CheckNumber(v: int, max: int): (r: NumberCheck)
    requires 0 <= max
    ensures r == InRange <==> 1 <= v <= max
    ensures r == Flawed <==> v == 0
    ensures r == OutOfRange <==> v < 0 || max < v
  {
    if v != 0 then
      if v < 0 || v > max then OutOfRange else InRange
    else
      Flawed
  }

  /** A C string argument holds no NUL byte. */
  predicate IsCText(s: seq<byte>) {
    forall i :: 0 <= i < |s| ==> s[i] != 0
  }

  /** strncpy(dst, s, n) into an `n`-byte buffer: the first `n` bytes of `s`,
      padded with NULs when `s` is shorter. */
  function StrNCopy(s: seq<byte>, n: nat): (r: seq<byte>)
    ensures |r| == n
    ensures forall i :: 0 <= i < n ==> r[i] == if i < |s| then s[i] else 0
  {
    if |s| >= n then s[..n] else s + seq(n - |s|, _ => 0)
  }

  /** The address test: copy into the MAX_ADDR_LEN buffer and refuse when its
      last byte is not NUL. Exactly the addresses that leave room for the
      terminator pass, their length counted in bytes. */
  function AddressFits(s: seq<byte>): (ok: bool)
    requires IsCText(s)
    ensures ok <==> |s| < MaxAddrLen
  {
    StrNCopy(s, MaxAddrLen)[MaxAddrLen - 1] == 0
  }

  /** Why an option was refused; each ends the parse with 0. */
  datatype Refusal =
    | MissingArgument
    | AddressTooLong
    | NumberFlawed(flag: char)
    | NumberOutOfRange(flag: char)
    | InvalidOption

  /** The verdict on one option. */
  datatype Check = Pass | Fail(why: Refusal)

  /** The verdict on the numeric argument of option `flag`. */
  function NumberVerdict(v: int, max: int, flag: char): (c: Check)
    requires 0 <= max
    ensures c == Pass <==> 1 <= v <= max
    ensures c == Fail(NumberFlawed(flag)) <==> v == 0
    ensures c == Fail(NumberOutOfRange(flag)) <==> v < 0 || max < v
  {
    match CheckNumber(v, max)
    case InRange => Pass
    case Flawed => Fail(NumberFlawed(flag))
    case OutOfRange => Fail(NumberOutOfRange(flag))
  }

  /** The verdict on an address argument. */
  function AddressVerdict(s: seq<byte>): (c: Check)
    requires IsCText(s)
    ensures c == Pass <==> |s| < MaxAddrLen
    ensures c != Pass ==> c == Fail(AddressTooLong)
  {
    if AddressFits(s) then Pass else Fail(AddressTooLong)
  }
}

=== FILE: cstrings.dfy ===
/** C strings held in byte buffers: the text is what comes before the first NUL. */
module CStrings {
  import opened MessageLog

  /** What strlen and printf("%s") see of a buffer: the bytes before its first
      NUL, or all of it when it has none. */
  function CString(s: seq<byte>): (r: seq<byte>)
    ensures r <= s
    ensures forall i :: 0 <= i < |r| ==> r[i] != 0
    ensures |r| < |s| ==> s[|r|] == 0
    decreases |s|
  {
    if s == [] || s[0] == 0 then [] else [s[0]] + CString(s[1..])
  }

  /** A buffer whose leading `|t|` bytes are `t` followed by a NUL reads as `t`
      read as a C string. */
  lemma {:induction false} CStringStopsAtNul(s: seq<byte>, t: seq<byte>)
    requires |t| < |s| && s[..|t|] == t && s[|t|] == 0
    ensures CString(s) == CString(t)
    decreases |t|
  {
    if t != [] && s[0] != 0 {
      assert s[1..][..|t[1..]|] == t[1..];
      CStringStopsAtNul(s[1..], t[1..]);
    }
  }

  /** Text without NUL bytes reads back whole. */
  lemma {:induction false} CStringOfText(t: seq<byte>)
    requires forall i :: 0 <= i < |t| ==> t[i] != 0
    ensures CString(t) == t
    decreases |t|
  {
    if t != [] {
      CStringOfText(t[1..]);
      assert [t[0]] + t[1..] == t;
    }
  }
}

=== FILE: limits.dfy ===
/** Compile-time limits shared by the chat server and client headers. */
module Limits {

  /** MAX_THREADS: the largest accepted `-t` thread count. */
  const MaxThreads: int := 255

  /** MAX_CONNECTIONS: the largest accepted `-l` connection count. */
  const MaxConnections: int := 1023

  /** MAX_ADDR_LEN: size of the address buffer, terminator included. */
  const MaxAddrLen: int := 256

  /** MSG_LEN: size of one receive buffer and of the server's per-delivery buffer. */
  const MsgLen: int := 256

  /** MSG_LOG_LEN: capacity the server and the client give their message logs. */
  const MsgLogLen: int := 1024

  /** The largest TCP port number. */
  const MaxPort: int := 65535
}

=== FILE: log_laws.dfy ===
/**
 * What the pushes and copies of messagelog.h do to the queue as a sequence of
 * bytes: which bytes a push keeps, and what a reader holding an older `end`
 * sees after further pushes.
 */
module LogLaws {
  import opened MessageLog

  /** The last `k` bytes of `s` (all of them when there are no more than `k`). */
  function Keep(s: seq<byte>, k: nat): (r: seq<byte>)
    ensures |r| == Min(|s|, k)
    ensures r == s[|s| - |r|..]
  {
    if |s| <= k then s else s[|s| - k..]
  }

  /** A push in the normal case that fills the block up to `dataend` while
      `begin` is at `data`: the queue then uses the cell kept back and holds
      `size + 1` bytes. */
  predicate FillsLastCell(log: Log, len: nat)
    requires Valid(log)
  {
    log.begin == 0 && !SplitsCopy(log, len) && log.end + Consumed(log, len) == |log.data|
  }

  /** Reading the block after a split push from a point `q` of the untouched
      cells round to the new `end` gives the old bytes from `q` followed by
      everything pushed. */
  lemma SplitRotation(data: seq<byte>, e: nat, w: seq<byte>, f: nat, q: nat)
    requires e + f == |data| && f <= |w| && |w| - f <= q <= e
    ensures
      var d := w[f..] + data[|w| - f..e] + w[..f];
      d[q..] + d[..|w| - f] == data[q..e] + w
  {
    var rest := |w| - f;
    var d := w[f..] + data[rest..e] + w[..f];
    assert d[..rest] == w[f..];
    assert d[q..] == data[q..e] + w[..f];
    assert w[..f] + w[f..] == w;
  }

  /** The pointers and cells a split push leaves behind. */
  lemma SplitShape(log: Log, buf: seq<byte>, len: nat)
    requires Valid(log) && WriteDefined(log, len) && Consumed(log, len) <= |buf|
    requires SplitsCopy(log, len)
    ensures
      var f := |log.data| - log.end;
      var rem := Consumed(log, len);
      var r := Write(log, buf, len).log;
      && 0 <= rem - f <= log.end
      && r.end == rem - f
      && r.data == buf[..rem][f..] + log.data[rem - f..log.end] + buf[..rem][..f]
      && (Overtakes(log, len) ==> r.begin == r.end + 1)
      && (!Overtakes(log, len) ==> r.begin == log.begin)
  {
    var f := |log.data| - log.end;
    var rem := Consumed(log, len);
    CellsLayout(log, buf, len);
    assert buf[..rem][f..] == buf[f..rem] && buf[..rem][..f] == buf[..f];
  }

  /** Dropping the first `cut` bytes of an unwrapped queue. */
  lemma NormalTail(data: seq<byte>, b: nat, e: nat, w: seq<byte>, cut: nat)
    requires b <= e <= |data| && cut <= e - b
    ensures (data[b..e] + w)[cut..] == data[b + cut..e] + w
  {
    assert (data[b..e] + w)[cut..] == data[b..e][cut..] + w;
  }

  /** A split push in the normal case that overtakes `begin`: the oldest
      bytes go. */
  lemma NormalSplitOvertakes(log: Log, buf: seq<byte>, len: nat)
    requires Valid(log) && WriteDefined(log, len) && Consumed(log, len) <= |buf|
    requires log.begin <= log.end && SplitsCopy(log, len) && SecondPart(log, len) > log.begin
    ensures
      var all := Content(log) + buf[..Consumed(log, len)];
      var rest := SecondPart(log, len);
      && |all| - Capacity(log) == rest + 1 - log.begin
      && Content(Write(log, buf, len).log) == all[rest + 1 - log.begin..]
  {
    SplitShape(log, buf, len);
    NormalSplitContent(log, buf[..Consumed(log, len)], Write(log, buf, len).log);
  }

  /** A block laid out as a split push in the normal case leaves it, with
      `begin` just past the new `end` beyond the old `begin`: the old queue
      and the pushed bytes, less the first bytes up to the new `begin`. */
  lemma NormalSplitContent(log: Log, w: seq<byte>, r: Log)
    requires Valid(log) && Valid(r) && log.begin <= log.end
    requires |log.data| - log.end <= |w| < |log.data|
    requires
      var f := |log.data| - log.end;
      && |w| - f > log.begin
      && r.end == |w| - f && r.begin == r.end + 1
      && r.data == w[f..] + log.data[|w| - f..log.end] + w[..f]
    ensures
      var all := Content(log) + w;
      var rest := |w| - (|log.data| - log.end);
      && |all| - Capacity(log) == rest + 1 - log.begin
      && Content(r) == all[rest + 1 - log.begin..]
  {
    var b, e := log.begin, log.end;
    var rest := |w| - (|log.data| - e);
    SplitSpan(log, w, r, rest + 1);
    assert Content(log) == log.data[b..e];
    NormalTail(log.data, b, e, w, rest + 1 - b);
  }

  /** A split push in the normal case that stays short of `begin` only grows
      the queue. */
  lemma NormalSplitGrows(log: Log, buf: seq<byte>, len: nat)
    requires Valid(log) && WriteDefined(log, len) && Consumed(log, len) <= |buf|
    requires log.begin <= log.end && SplitsCopy(log, len) && SecondPart(log, len) < log.begin
    ensures Content(Write(log, buf, len).log) == Content(log) + buf[..Consumed(log, len)]
  {
    SplitShape(log, buf, len);
    SplitSpan(log, buf[..Consumed(log, len)], Write(log, buf, len).log, log.begin);
  }

  /** A push in the normal case copied in one part only grows the queue. */
  lemma NormalOnePieceKeeps(log: Log, buf: seq<byte>, len: nat)
    requires Valid(log) && WriteDefined(log, len) && Consumed(log, len) <= |buf|
    requires log.begin <= log.end && !SplitsCopy(log, len)
    ensures Content(Write(log, buf, len).log) == Content(log) + buf[..Consumed(log, len)]
  {
    var rem := Consumed(log, len);
    var w := buf[..rem];
    var b, e := log.begin, log.end;
    assert Content(log) == log.data[b..e];
    var r := Write(log, buf, len);
    OnePieceShape(log, buf, len);
    var d := r.log.data;
    assert d == log.data[..e] + w + log.data[e + rem..];
    assert Content(r.log) == d[b..e + rem];
  }

  /** Dropping the bytes of a wrapped queue up to `dataend` and then `q` more
      leaves its tail at `data` from `q` on. */
  lemma WrappedTail(data: seq<byte>, b: nat, e: nat, w: seq<byte>, q: nat)
    requires e < b <= |data| && q <= e
    ensures (data[b..] + data[..e] + w)[(|data| - b) + q..] == data[q..e] + w
  {
    var c := data[b..] + data[..e];
    assert (c + w)[(|data| - b) + q..] == c[(|data| - b) + q..] + w;
    assert c[(|data| - b) + q..] == data[..e][q..];
  }

  /** A block laid out as a split push in the wrapped case leaves it, with
      `begin` just past the new `end`, holds the last `size` bytes of the old
      queue followed by the pushed bytes. */
  lemma WrappedSplitContent(log: Log, w: seq<byte>, r: Log)
    requires Valid(log) && Valid(r) && log.begin > log.end
    requires |log.data| - log.end <= |w| < |log.data| && log.end + |w| > |log.data|
    requires
      var f := |log.data| - log.end;
      && r.end == |w| - f && r.begin == r.end + 1
      && r.data == w[f..] + log.data[|w| - f..log.end] + w[..f]
    ensures Content(r) == Keep(Content(log) + w, Capacity(log))
  {
    var data, b, e := log.data, log.begin, log.end;
    var rest := |w| - (|data| - e);
    SplitSpan(log, w, r, rest + 1);
    WrappedTail(data, b, e, w, rest + 1);
    var all := data[b..] + data[..e] + w;
    assert Content(log) + w == all;
    assert |all| - (|data| - 1) == (|data| - b) + (rest + 1);
  }

  /** A split push in the wrapped case overtakes `begin` and keeps the last
      `size` bytes. */
  lemma WrappedSplitKeeps(log: Log, buf: seq<byte>, len: nat)
    requires Valid(log) && WriteDefined(log, len) && Consumed(log, len) <= |buf|
    requires log.begin > log.end && log.end + Consumed(log, len) > |log.data|
    ensures
      var all := Content(log) + buf[..Consumed(log, len)];
      Content(Write(log, buf, len).log) == Keep(all, Capacity(log))
  {
    SplitShape(log, buf, len);
    WrappedSplitContent(log, buf[..Consumed(log, len)], Write(log, buf, len).log);
  }

  /** A push in the wrapped case copied in one part that stays short of
      `begin` only grows the queue. */
  lemma WrappedOnePieceGrows(log: Log, buf: seq<byte>, len: nat)
    requires Valid(log) && WriteDefined(log, len) && Consumed(log, len) <= |buf|
    requires log.begin > log.end && log.end + Consumed(log, len) < log.begin
    ensures Content(Write(log, buf, len).log) == Content(log) + buf[..Consumed(log, len)]
  {
    var rem := Consumed(log, len);
    var b, e := log.begin, log.end;
    assert Content(log) == log.data[b..] + log.data[..e];
    OnePieceShape(log, buf, len);
    var d := Write(log, buf, len).log.data;
    assert d[..e + rem] == log.data[..e] + buf[..rem];
    assert d[b..] == log.data[b..];
  }

  /** A push in the wrapped case copied in one part that reaches `begin`
      keeps the last `size` bytes. */
  lemma WrappedOnePieceOvertakes(log: Log, buf: seq<byte>, len: nat)
    requires Valid(log) && WriteDefined(log, len) && Consumed(log, len) <= |buf|
    requires log.begin > log.end && log.begin <= log.end + Consumed(log, len) <= |log.data|
    ensures
      var all := Content(log) + buf[..Consumed(log, len)];
      Content(Write(log, buf, len).log) == Keep(all, Capacity(log))
  {
    OnePieceShape(log, buf, len);
    WrappedOnePieceContent(log, buf[..Consumed(log, len)], Write(log, buf, len).log);
  }

  /** A block laid out as a one-part push in the wrapped case leaves it, with
      `begin` just past the new `end`: the last `size` bytes of the old queue
      and the pushed bytes. */
  lemma WrappedOnePieceContent(log: Log, w: seq<byte>, r: Log)
    requires Valid(log) && Valid(r) && log.begin > log.end
    requires log.begin <= log.end + |w| < |log.data|
    requires r.end == log.end + |w| && r.begin == r.end + 1
    requires r.data == log.data[..log.end] + w + log.data[log.end + |w|..]
    ensures Content(r) == Keep(Content(log) + w, Capacity(log))
  {
    var b, e, k := log.begin, log.end, |w|;
    var x, y := log.data[b..], log.data[..e];
    assert Content(log) == x + y;
    var d := r.data;
    assert Content(r) == d[e + k + 1..] + d[..e + k];
    assert d[..e + k] == y + w;
    assert d[e + k + 1..] == x[e + k + 1 - b..];
    var cut := e + k + 1 - b;
    assert |x + y + w| - Capacity(log) == cut;
    assert Keep(Content(log) + w, Capacity(log)) == (x + y + w)[cut..];
    DropFront(x, y, w, cut);
    Regroup(x[cut..], y, w);
  }

  /** Dropping bytes only from the front part of three. */
  lemma DropFront(x: seq<byte>, y: seq<byte>, w: seq<byte>, cut: nat)
    requires cut <= |x|
    ensures (x + y + w)[cut..] == x[cut..] + y + w
  {
    assert (x + y + w)[cut..] == (x + y)[cut..] + w;
  }

  /** Which bytes a push keeps. Counting the queue and the consumed bytes
      together: up to `size` bytes are all kept; beyond that only the last
      `size` survive. Two pushes in the normal case break the rule when the
      total is exactly `size + 1`: one that fills the block up to `dataend`
      with `begin` at `data` keeps all `size + 1` bytes, and a split one that
      ends exactly on `begin` leaves the queue empty. */
  lemma WriteKeeps(log: Log, buf: seq<byte>, len: nat)
    requires Valid(log) && WriteDefined(log, len) && Consumed(log, len) <= |buf|
    ensures
      var all := Content(log) + buf[..Consumed(log, len)];
      var after := Content(Write(log, buf, len).log);
      && (LandsOnBegin(log, len) ==> after == [])
      && (FillsLastCell(log, len) ==> after == all)
      && (!LandsOnBegin(log, len) && !FillsLastCell(log, len) ==> after == Keep(all, Capacity(log)))
  {
    if log.begin <= log.end {
      if SplitsCopy(log, len) {
        if SecondPart(log, len) > log.begin {
          NormalSplitOvertakes(log, buf, len);
        } else if SecondPart(log, len) < log.begin {
          NormalSplitGrows(log, buf, len);
        }
      } else {
        NormalOnePieceKeeps(log, buf, len);
      }
    } else if SplitsCopy(log, len) {
      WrappedSplitKeeps(log, buf, len);
    } else if log.end + Consumed(log, len) < log.begin {
      WrappedOnePieceGrows(log, buf, len);
    } else {
      WrappedOnePieceOvertakes(log, buf, len);
    }
  }

  /** The cells a push copied in one part leaves behind. */
  lemma OnePieceShape(log: Log, buf: seq<byte>, len: nat)
    requires Valid(log) && WriteDefined(log, len) && Consumed(log, len) <= |buf|
    requires !SplitsCopy(log, len)
    ensures
      var rem := Consumed(log, len);
      var r := Write(log, buf, len).log;
      && log.end + rem <= |log.data|
      && r.end == log.end + rem
      && r.data == log.data[..log.end] + buf[..rem] + log.data[log.end + rem..]
  {
    CellsLayout(log, buf, len);
  }

  /** `AppendedSpan` for a reader left of the old `end` and a split push. */
  lemma AppendedSpanSplit(log: Log, buf: seq<byte>, len: nat, from: nat)
    requires Valid(log) && WriteDefined(log, len) && Consumed(log, len) <= |buf|
    requires from <= log.end && SplitsCopy(log, len)
    requires |Span(log, from)| + Consumed(log, len) < |log.data|
    ensures Span(Write(log, buf, len).log, from) == Span(log, from) + buf[..Consumed(log, len)]
  {
    SplitShape(log, buf, len);
    SplitSpan(log, buf[..Consumed(log, len)], Write(log, buf, len).log, from);
  }

  /** A block laid out as a split push leaves it, read from a point `q` of
      the old queue that the second part stops short of: the old bytes from
      `q`, then the pushed bytes. */
  lemma SplitSpan(log: Log, w: seq<byte>, r: Log, q: nat)
    requires Valid(log) && Valid(r) && q <= log.end
    requires |log.data| - log.end <= |w| && |w| - (|log.data| - log.end) < q
    requires
      var f := |log.data| - log.end;
      && r.end == |w| - f
      && r.data == w[f..] + log.data[|w| - f..log.end] + w[..f]
    ensures Span(r, q) == Span(log, q) + w
  {
    var f := |log.data| - log.end;
    assert Span(r, q) == r.data[q..] + r.data[..|w| - f];
    SplitRotation(log.data, log.end, w, f, q);
  }

  /** `AppendedSpan` for a reader left of the old `end` and a one-part push. */
  lemma AppendedSpanOnePiece(log: Log, buf: seq<byte>, len: nat, from: nat)
    requires Valid(log) && WriteDefined(log, len) && Consumed(log, len) <= |buf|
    requires from <= log.end && !SplitsCopy(log, len)
    ensures Span(Write(log, buf, len).log, from) == Span(log, from) + buf[..Consumed(log, len)]
  {
    var rem := Consumed(log, len);
    OnePieceShape(log, buf, len);
    var r := Write(log, buf, len).log;
    assert Span(r, from) == r.data[from..log.end + rem];
  }

  /** A block laid out as a one-part push leaves it, read round from a
      point right of the new `end`: the old bytes from there, then the
      pushed bytes. */
  lemma OnePieceSpanAhead(log: Log, w: seq<byte>, r: Log, from: nat)
    requires Valid(log) && Valid(r) && log.end + |w| < from <= |log.data|
    requires r.end == log.end + |w|
    requires r.data == log.data[..log.end] + w + log.data[log.end + |w|..]
    ensures Span(r, from) == Span(log, from) + w
  {
    var e := log.end;
    assert r.data[from..] == log.data[from..];
    assert r.data[..e + |w|] == log.data[..e] + w;
  }

  /** `AppendedSpan` for a reader right of the old `end`. */
  lemma AppendedSpanAhead(log: Log, buf: seq<byte>, len: nat, from: nat)
    requires Valid(log) && WriteDefined(log, len) && Consumed(log, len) <= |buf|
    requires log.end < from <= |log.data|
    requires |Span(log, from)| + Consumed(log, len) < |log.data|
    ensures Span(Write(log, buf, len).log, from) == Span(log, from) + buf[..Consumed(log, len)]
  {
    assert |Span(log, from)| == |log.data| - from + log.end;
    assert !SplitsCopy(log, len) by {
      if log.begin <= log.end && len >= |log.data| {
        assert SecondPart(log, len) < 0;
      }
    }
    OnePieceShape(log, buf, len);
    OnePieceSpanAhead(log, buf[..Consumed(log, len)], Write(log, buf, len).log, from);
  }

  /** No missed bytes: a reader at offset `from` that the pushes have not
      lapped finds, after one more push, exactly what it would have found
      before followed by the bytes that push consumed. This holds in every
      branch of the push, whatever it does to `begin`. */
  lemma AppendedSpan(log: Log, buf: seq<byte>, len: nat, from: nat)
    requires Valid(log) && WriteDefined(log, len) && Consumed(log, len) <= |buf|
    requires from <= |log.data|
    requires |Span(log, from)| + Consumed(log, len) < |log.data|
    ensures Span(Write(log, buf, len).log, from) == Span(log, from) + buf[..Consumed(log, len)]
  {
    if from > log.end {
      AppendedSpanAhead(log, buf, len, from);
    } else if SplitsCopy(log, len) {
      AppendedSpanSplit(log, buf, len, from);
    } else {
      AppendedSpanOnePiece(log, buf, len, from);
    }
  }

  // ---------------------------------------------------------------------------
  // Several pushes in a row

  /** Every push of `msgs`, made one after another as whole messages, keeps
      its pointer arithmetic defined. */
  predicate PushesDefined(log: Log, msgs: seq<seq<byte>>)
    requires Valid(log)
    decreases |msgs|
  {
    msgs == [] ||
    (WriteDefined(log, |msgs[0]|) && PushesDefined(Write(log, msgs[0], |msgs[0]|).log, msgs[1..]))
  }

  /** The log after pushing each of `msgs` in turn. */
  function PushAll(log: Log, msgs: seq<seq<byte>>): (r: Log)
    requires Valid(log) && PushesDefined(log, msgs)
    ensures Valid(r) && |r.data| == |log.data|
    decreases |msgs|
  {
    if msgs == [] then log else PushAll(Write(log, msgs[0], |msgs[0]|).log, msgs[1..])
  }

  /** The messages laid end to end. */
  function Concat(msgs: seq<seq<byte>>): seq<byte>
    decreases |msgs|
  {
    if msgs == [] then [] else msgs[0] + Concat(msgs[1..])
  }

  /** One whole message pushed where a reader at `from` is not lapped: the
      reader finds it appended, and the block keeps its size. */
  lemma PushWhole(log: Log, m: seq<byte>, from: nat)
    requires Valid(log) && WriteDefined(log, |m|) && from <= |log.data|
    requires |m| <= Capacity(log) && |Span(log, from)| + |m| < |log.data|
    ensures
      var next := Write(log, m, |m|).log;
      && Valid(next) && Capacity(next) == Capacity(log)
      && Span(next, from) == Span(log, from) + m
  {
    assert m[..Consumed(log, |m|)] == m;
    AppendedSpan(log, m, |m|, from);
  }

  lemma Regroup(a: seq<byte>, b: seq<byte>, c: seq<byte>)
    ensures a + b + c == a + (b + c)
  {
  }

  /** No missed bytes over several pushes: a reader at `from` that they do
      not lap finds what it found before followed by every pushed message,
      in push order. */
  lemma {:induction false} NoMissedBytes(log: Log, msgs: seq<seq<byte>>, from: nat)
    requires Valid(log) && PushesDefined(log, msgs) && from <= |log.data|
    requires forall i :: 0 <= i < |msgs| ==> |msgs[i]| <= Capacity(log)
    requires |Span(log, from)| + |Concat(msgs)| < |log.data|
    ensures Span(PushAll(log, msgs), from) == Span(log, from) + Concat(msgs)
    decreases |msgs|
  {
    if msgs != [] {
      var m, more := msgs[0], msgs[1..];
      assert Concat(msgs) == m + Concat(more);
      PushWhole(log, m, from);
      var next := Write(log, m, |m|).log;
      assert PushAll(log, msgs) == PushAll(next, more);
      assert forall i :: 0 <= i < |more| ==> more[i] == msgs[i + 1];
      NoMissedBytes(next, more, from);
      Regroup(Span(log, from), m, Concat(more));
    }
  }
}

=== FILE: messagelog.dfy ===
/**
 * The message log of messagelog.h: one malloc'd block used as a circular byte
 * queue. A push that does not fit overwrites the oldest bytes; a push longer
 * than the queue keeps only the part that fits. The four pointers of the C
 * struct are modelled as offsets from `data`:
 *
 *   normal case:          |------|========|------|
 *                        data  begin     end  dataend
 *   wrapped around case:  |===|-------|==========|
 *                        data end   begin     dataend
 */
module MessageLog {

  newtype byte = x: int | 0 <= x < 256

  /** `struct messagelog`: `data` is the whole block, `begin` and `end` are the
      offsets of the begin and end pointers from `data`, and the `dataend`
      pointer is `data + |data|`. */
  datatype Log = Log(data: seq<byte>, begin: nat, end: nat)

  /** Both pointers lie inside the block or exactly at `dataend`. */
  predicate Valid(log: Log) {
    0 < |log.data| && log.begin <= |log.data| && log.end <= |log.data|
  }

  /** The `size` the log was created with: one cell of the block is kept back
      to tell a full queue from an empty one. */
  function Capacity(log: Log): nat
    requires Valid(log)
  {
    |log.data| - 1
  }

  /** The bytes met walking forward from offset `from` to `end`, crossing over
      from `dataend` to `data` when `from` lies right of `end`. Its length is
      `end - from` in the normal case and `(dataend - from) + (end - data)`
      in the wrapped around case. */
  function Span(log: Log, from: nat): seq<byte>
    requires Valid(log) && from <= |log.data|
  {
    if from <= log.end then log.data[from..log.end]
    else log.data[from..] + log.data[..log.end]
  }

  /** The first `k` bytes of a span: read straight on when they stop short of
      `dataend`, otherwise the part up to `dataend` and the rest from `data`. */
  lemma SpanStart(log: Log, from: nat, k: nat)
    requires Valid(log) && from <= |log.data| && k <= |Span(log, from)|
    ensures from + k <= |log.data| ==> Span(log, from)[..k] == log.data[from..from + k]
    ensures from + k > |log.data| ==>
      Span(log, from)[..k] == log.data[from..] + log.data[..k - (|log.data| - from)]
  {
    var n := |log.data|;
    if from > log.end {
      var s := log.data[from..] + log.data[..log.end];
      if from + k <= n {
        assert s[..k] == log.data[from..][..k];
      } else {
        assert s[..k] == log.data[from..] + log.data[..log.end][..k - (n - from)];
      }
    }
  }

  /** The queue itself, oldest byte first. */
  function Content(log: Log): seq<byte>
    requires Valid(log)
  {
    Span(log, log.begin)
  }

  /** memcpy(dst + at, src, |src|). */
  function Place(dst: seq<byte>, at: nat, src: seq<byte>): (r: seq<byte>)
    requires at + |src| <= |dst|
    ensures |r| == |dst|
  {
    dst[..at] + src + dst[at + |src|..]
  }

  /** memcpy(dst, src, |src|): `src` over the start of `dst`. */
  function CopyOut(dst: seq<byte>, src: seq<byte>): (r: seq<byte>)
    requires |src| <= |dst|
    ensures |r| == |dst| && r[..|src|] == src && r[|src|..] == dst[|src|..]
  {
    src + dst[|src|..]
  }

  function Min(a: int, b: int): int {
    if a <= b then a else b
  }

  // ---------------------------------------------------------------------------
  // initMessageLog

  /** `initMessageLog(size)`. The block holds whatever malloc returned; that is
      the parameter `cells`. */
  function Init(size: nat, cells: seq<byte>): (log: Log)
    requires |cells| == size + 1
    ensures Valid(log) && Capacity(log) == size
    ensures log.begin == log.end && Content(log) == []
  {
    Log(cells, 0, 0)
  }

  // ---------------------------------------------------------------------------
  // writeMessageLog

  /** The number of bytes a push of `len` bytes copies: `len`, cut down to the
      capacity when `len` reaches the block size. */
  function Consumed(log: Log, len: nat): (k: nat)
    requires Valid(log)
    ensures k == Min(len, Capacity(log))
  {
    if len >= |log.data| then |log.data| - 1 else len
  }

  /** Whether the push copies in two parts, first up to `dataend` and then
      from `data`. The normal case tests `len` here, the wrapped case the
      clamped count. */
  predicate SplitsCopy(log: Log, len: nat)
    requires Valid(log)
  {
    if log.begin <= log.end then |log.data| - log.end < len
    else log.end + Consumed(log, len) > |log.data|
  }

  /** Where `end` lands when the copy was split: the length of its second part. */
  function SecondPart(log: Log, len: nat): int
    requires Valid(log)
  {
    Consumed(log, len) - (|log.data| - log.end)
  }

  /** Whether the push overwrites older bytes and so moves `begin` to `end + 1`. */
  predicate Overtakes(log: Log, len: nat)
    requires Valid(log)
  {
    if log.begin <= log.end then SplitsCopy(log, len) && SecondPart(log, len) > log.begin
    else log.end + Consumed(log, len) >= log.begin
  }

  /** A split push in the normal case whose second part ends exactly at
      `begin`: the strict test leaves `begin == end`. */
  predicate LandsOnBegin(log: Log, len: nat)
    requires Valid(log)
  {
    log.begin <= log.end && SplitsCopy(log, len) && SecondPart(log, len) == log.begin
  }

  /** The pushes whose pointer arithmetic stays defined: a split in the normal
      case must not leave a negative count for its second memcpy (which only
      happens for an empty queue at `data` and a push longer than the block),
      and an overwriting push in the wrapped case must not end exactly at
      `dataend`, which would move `begin` one past `dataend`. */
  predicate WriteDefined(log: Log, len: nat)
    requires Valid(log)
  {
    && (log.begin <= log.end && SplitsCopy(log, len) ==> SecondPart(log, len) >= 0)
    && (log.begin > log.end ==> log.end + Consumed(log, len) != |log.data|)
  }

  datatype Pushed = Pushed(log: Log, ret: int)

  /** `writeMessageLog(msglog, buf, len)`: push the first `Consumed(len)`
      bytes of `buf`. */
  function Write(log: Log, buf: seq<byte>, len: nat): (r: Pushed)
    requires Valid(log) && WriteDefined(log, len) && Consumed(log, len) <= |buf|
    ensures Valid(r.log) && r.log.data == Cells(log, buf, len)
    // end moves forward by the consumed count, around the ring
    ensures !SplitsCopy(log, len) ==> r.log.end == log.end + Consumed(log, len)
    ensures SplitsCopy(log, len) ==> r.log.end + |log.data| == log.end + Consumed(log, len)
    // the value returned is the consumed count only when the copy was not split
    ensures !SplitsCopy(log, len) ==> r.ret == Consumed(log, len)
    ensures SplitsCopy(log, len) ==> r.ret == r.log.end && r.ret == Consumed(log, len) - (|log.data| - log.end)
    // begin only moves when older bytes are overwritten
    ensures !Overtakes(log, len) ==> r.log.begin == log.begin
    // when it does, the queue is full: by the size formula `end + 1 == begin` means `size` bytes
    ensures Overtakes(log, len) ==> r.log.begin == r.log.end + 1
    // a split landing exactly on `begin` leaves `begin == end`: the queue reads as empty
    ensures LandsOnBegin(log, len) ==> r.log.begin == r.log.end
    ensures len == 0 ==> r.log == log
  {
    var n := |log.data|;
    var rem := Consumed(log, len);
    var data := Cells(log, buf, len);
    if log.begin <= log.end then
      if n - log.end < len then
        var rest := rem - (n - log.end);
        if rest > log.begin then Pushed(Log(data, rest + 1, rest), rest)
        else Pushed(Log(data, log.begin, rest), rest)
      else
        Pushed(Log(data, log.begin, log.end + rem), rem)
    else if log.end + rem >= log.begin then
      if log.end + rem > n then
        var rest := rem - (n - log.end);
        // both arms of the test at messagelog.h:100 assign the same pointers
        Pushed(Log(data, rest + 1, rest), rest)
      else
        Pushed(Log(data, log.end + rem + 1, log.end + rem), rem)
    else
      Pushed(Log(data, log.begin, log.end + rem), rem)
  }

  /** The block after the memcpys of a push: in every branch either one copy
      at `end`, or, when the copy is split, the part up to `dataend` at `end`
      and the rest at `data`. */
  function Cells(log: Log, buf: seq<byte>, len: nat): (d: seq<byte>)
    requires Valid(log) && WriteDefined(log, len) && Consumed(log, len) <= |buf|
    ensures |d| == |log.data|
    ensures len == 0 ==> d == log.data
  {
    var n := |log.data|;
    var rem := Consumed(log, len);
    if SplitsCopy(log, len) then
      Place(Place(log.data, log.end, buf[..n - log.end]), 0, buf[n - log.end..rem])
    else
      Place(log.data, log.end, buf[..rem])
  }

  /** How the block is laid out after a push. */
  lemma CellsLayout(log: Log, buf: seq<byte>, len: nat)
    requires Valid(log) && WriteDefined(log, len) && Consumed(log, len) <= |buf|
    // a split copy: the second part at `data`, the untouched cells, the first part up to `dataend`
    ensures SplitsCopy(log, len) ==>
      var f := |log.data| - log.end;
      var rem := Consumed(log, len);
      && 0 <= rem - f <= log.end
      && Cells(log, buf, len) == buf[f..rem] + log.data[rem - f..log.end] + buf[..f]
    // a copy in one part: the consumed bytes at `end`, the other cells untouched
    ensures !SplitsCopy(log, len) ==>
      var rem := Consumed(log, len);
      && log.end + rem <= |log.data|
      && Cells(log, buf, len) == log.data[..log.end] + buf[..rem] + log.data[log.end + rem..]
  {
    var rem := Consumed(log, len);
    if SplitsCopy(log, len) {
      SplitCells(log.data, log.end, buf, rem);
    } else {
      OnePieceCells(log.data, log.end, buf[..rem]);
    }
  }

  /** The block after a push copied in two parts: the second part at `data`,
      the untouched cells, then the first part up to `dataend`. */
  lemma SplitCells(data: seq<byte>, e: nat, buf: seq<byte>, rem: nat)
    requires e <= |data| && |data| - e <= rem <= |buf| && rem - (|data| - e) <= e
    ensures Place(Place(data, e, buf[..|data| - e]), 0, buf[|data| - e..rem])
         == buf[|data| - e..rem] + data[rem - (|data| - e)..e] + buf[..|data| - e]
  {
    var f := |data| - e;
    var rest := rem - f;
    var a := Place(Place(data, e, buf[..f]), 0, buf[f..rem]);
    var b := buf[f..rem] + data[rest..e] + buf[..f];
    assert |a| == |b|;
    forall i | 0 <= i < |a|
      ensures a[i] == b[i]
    {
      if i < rest {
      } else if i < e {
      } else {
        assert a[i] == buf[..f][i - e];
      }
    }
  }

  /** The block after a push copied in one part. */
  lemma OnePieceCells(data: seq<byte>, e: nat, w: seq<byte>)
    requires e + |w| <= |data|
    ensures Place(data, e, w) == data[..e] + w + data[e + |w|..]
  {
  }


  // ---------------------------------------------------------------------------
  // readDelta and readMessageLog

  datatype Copied = Copied(ret: int, buf: seq<byte>)

  /** The number of bytes a copy of `len` bytes starting at `from` places in
      the caller's buffer: all of them up to `end` when `len` is 0 or at
      least that many, `len` otherwise. */
  function CopyCount(log: Log, from: nat, len: nat): (k: nat)
    requires Valid(log) && from <= |log.data|
    ensures k <= |Span(log, from)|
    ensures len == 0 ==> k == |Span(log, from)|
    ensures len > 0 ==> k == Min(len, |Span(log, from)|)
  {
    var avail := |Span(log, from)|;
    if len == 0 || len >= avail then avail else len
  }

  /** Whether that copy is split at `dataend`. */
  predicate CopyCrosses(log: Log, from: nat, len: nat)
    requires Valid(log) && from <= |log.data|
  {
    from > log.end && CopyCount(log, from, len) > |log.data| - from
  }

  /** `readDelta(msglog, buf, len, delta)`: copy the bytes from `delta` up to
      `end` into `buf`. The log is not changed, and the assignment to the
      by-value `delta` at its end is lost, so nothing else is returned. */
  function ReadDelta(log: Log, buf: seq<byte>, len: nat, delta: nat): (r: Copied)
    requires Valid(log) && delta <= |log.data|
    requires 0 < |buf| && CopyCount(log, delta, len) <= |buf|
    ensures |r.buf| == |buf|
    // nothing new: an empty C string
    ensures delta == log.end ==> r.ret == 0 && r.buf[0] == 0 && r.buf[1..] == buf[1..]
    // otherwise the leading unread bytes, the rest of the buffer untouched
    ensures delta != log.end ==>
      var k := CopyCount(log, delta, len);
      r.buf[..k] == Span(log, delta)[..k] && r.buf[k..] == buf[k..]
    // the value returned is the copied count only when the copy is not split
    ensures delta != log.end && !CopyCrosses(log, delta, len) ==> r.ret == CopyCount(log, delta, len)
    ensures CopyCrosses(log, delta, len) ==>
      0 < r.ret == CopyCount(log, delta, len) - (|log.data| - delta)
  {
    var n := |log.data|;
    if delta == log.end then
      Copied(0, CopyOut(buf, [0]))
    else if delta <= log.end then
      var rem := if len == 0 then log.end - delta
                 else if len >= log.end - delta then log.end - delta
                 else len;
      SpanStart(log, delta, rem);
      Copied(rem, CopyOut(buf, log.data[delta..delta + rem]))
    else
      var avail := (n - delta) + log.end;
      var rem := if len == 0 then avail else if len >= avail then avail else len;
      if rem > n - delta then
        var rest := rem - (n - delta);
        // the two memcpys lay the part up to `dataend` and the part from `data`
        // side by side at the start of the buffer
        SpanStart(log, delta, rem);
        Copied(rest, CopyOut(buf, log.data[delta..] + log.data[..rest]))
      else
        SpanStart(log, delta, rem);
        Copied(rem, CopyOut(buf, log.data[delta..delta + rem]))
  }

  /** `readMessageLog(msglog, buf, len)`: copy the queue from `begin` without
      removing anything. Its body is `readDelta` started at `begin`. */
  function Read(log: Log, buf: seq<byte>, len: nat): (r: Copied)
    requires Valid(log)
    requires 0 < |buf| && CopyCount(log, log.begin, len) <= |buf|
    ensures |r.buf| == |buf|
    ensures log.begin == log.end ==> r.ret == 0 && r.buf[0] == 0 && r.buf[1..] == buf[1..]
    ensures log.begin != log.end ==>
      var k := if len == 0 then |Content(log)| else Min(len, |Content(log)|);
      r.buf[..k] == Content(log)[..k] && r.buf[k..] == buf[k..]
    ensures log.begin < log.end ==> r.ret == Min(if len == 0 then |Content(log)| else len, |Content(log)|)
    ensures log.begin > log.end ==>
      var k := if len == 0 then |Content(log)| else Min(len, |Content(log)|);
      r.ret == if k > |log.data| - log.begin then k - (|log.data| - log.begin) else k
  {
    ReadDelta(log, buf, len, log.begin)
  }

  /** `readDelta` returning its `ret` variable, the count it copied, where the
      code returns `rem`, which a split copy has already cut down to the part
      taken from the start of `data`. */
  function ReadDeltaIntended(log: Log, buf: seq<byte>, len: nat, delta: nat): (r: Copied)
    requires Valid(log) && delta <= |log.data|
    requires 0 < |buf| && CopyCount(log, delta, len) <= |buf|
    ensures r.buf == ReadDelta(log, buf, len, delta).buf && |r.buf| == |buf|
    ensures len == 0 ==> r.ret == |Span(log, delta)|
    ensures len > 0 ==> r.ret == Min(len, |Span(log, delta)|)
    // the count returned covers exactly the bytes copied
    ensures 0 <= r.ret <= |Span(log, delta)| && r.ret <= |r.buf|
    ensures r.buf[..r.ret] == Span(log, delta)[..r.ret]
  {
    Copied(CopyCount(log, delta, len), ReadDelta(log, buf, len, delta).buf)
  }

  // ---------------------------------------------------------------------------
  // removeMessageLog (empty and normal cases)

  datatype Popped = Popped(log: Log, ret: int, buf: seq<byte>)

  /** The count `removeMessageLog` settles on in the normal case: one byte
      short of the queue when `len` is 0, otherwise `len` cut to the queue. */
  function PopCount(log: Log, len: nat): nat
    requires Valid(log) && log.begin < log.end
  {
    if len == 0 then log.end - log.begin - 1
    else if len > log.end - log.begin - 1 then log.end - log.begin
    else len
  }

  /** `removeMessageLog(msglog, buf, len)` on a queue that is not wrapped
      around: pop the leading bytes into `buf`. */
  function Remove(log: Log, buf: seq<byte>, len: nat): (r: Popped)
    requires Valid(log) && log.begin <= log.end
    requires 0 < |buf| && (log.begin < log.end ==> PopCount(log, len) <= |buf|)
    ensures Valid(r.log) && r.log.data == log.data && |r.buf| == |buf|
    ensures log.begin == log.end ==>
      r.log == log && r.ret == 0 && r.buf[0] == 0 && r.buf[1..] == buf[1..]
    ensures log.begin < log.end ==>
      && 0 <= r.ret <= |Content(log)| && r.ret <= |buf|
      && r.buf[..r.ret] == Content(log)[..r.ret]
      && r.buf[r.ret..] == buf[r.ret..]
      && Content(log) == r.buf[..r.ret] + Content(r.log)
    // a count of 0 leaves the last byte behind; any other count is cut to the queue
    ensures log.begin < log.end && len == 0 ==> r.ret == |Content(log)| - 1
    ensures log.begin < log.end && len > 0 ==> r.ret == Min(len, |Content(log)|)
  {
    if log.begin == log.end then
      Popped(log, 0, CopyOut(buf, [0]))
    else
      var rem := PopCount(log, len);
      // the second clamp at line 142 never changes the count
      var moved := if log.end - log.begin < rem then log.end - log.begin else rem;
      Popped(Log(log.data, log.begin + moved, log.end), rem,
             CopyOut(buf, log.data[log.begin..log.begin + moved]))
  }
}

=== FILE: scenarios.dfy ===
/**
 * Two scenarios of the server, stated as lemmas: what the first client
 * is greeted with, and a delivery that crosses `dataend`.
 */
module Scenarios {
  import opened Limits
  import opened MessageLog
  import opened LogLaws
  import opened CStrings
  import opened ServerSession

  /** `main` sets up the shared log and writes the 63-byte greeting into it
      without its NUL (server.c:86-92); a client that connects before anyone
      has spoken is sent exactly that greeting, and waits at its end. */
  lemma {:induction false} StartupGreeting(cells: seq<byte>, motd: seq<byte>)
    requires |cells| == MsgLogLen + 1
    requires |motd| == 63 && forall i :: 0 <= i < |motd| ==> motd[i] != 0
    ensures
      var log := Write(Init(MsgLogLen, cells), motd, |motd|).log;
      && ServerLog(log) && Content(log) == motd
      && Connect(log) == Greeting(motd, |motd|)
  {
    var start := Init(MsgLogLen, cells);
    var log := Write(start, motd, |motd|).log;
    AppendedSpan(start, motd, |motd|, start.begin);
    assert motd[..Consumed(start, |motd|)] == motd;
    assert Content(log) == motd;
    assert Content(log)[..Min(|Content(log)|, MsgLogLen - 1)] == motd;
    CStringOfText(motd);
  }

  /** A log whose `end` sits four cells before `dataend`: ten bytes pushed
      there are stored as four before `dataend` and six from the start of
      `data`. The next delivery asks write() for only six bytes, so even a
      write that sends all it is asked for sends the first six of the ten,
      while with the intended count a full write sends all ten. */
  lemma {:induction false} ShortDelivery(log: Log, msg: seq<byte>, scratch: seq<byte>)
    requires ServerLog(log) && log.begin == 0 && log.end == |log.data| - 4
    requires |msg| == 10 && |scratch| == MsgLen
    ensures Span(Write(log, msg, 10).log, log.end) == msg
    ensures
      var now := Write(log, msg, 10).log;
      && Outgoing(now, log.end) == 6
      && Deliver(now, log.end, scratch, 6) == Delivered(msg[..6], now.end)
      && DeliverIntended(now, log.end, scratch, 10) == Delivered(msg, now.end)
  {
    var now := Write(log, msg, 10).log;
    AppendedSpan(log, msg, 10, log.end);
    assert msg[..Consumed(log, 10)] == msg;
    assert now.end == 6;
    assert CopyCrosses(now, log.end, 0);
  }
}

=== FILE: server_options.dfy ===
/**
 * `getsrvopts` (server.h): the server's option string "a:p:t:l:Td". Options
 * are checked in the order given; the first that fails ends the parse with
 * 0, and a parse that gets through them all returns 1.
 */
module ServerOptions {
  import opened Limits
  import opened CommandLine
  import opened MessageLog

  /** One option as getopt hands it over. */
  datatype ServerOption =
    | ListenAddress(addr: Arg<seq<byte>>)   // -a
    | ListenPort(port: Arg<int>)         // -p
    | Threads(threads: Arg<int>)         // -t
    | Connections(conns: Arg<int>)       // -l
    | ThreadPool                         // -T
    | Debug                              // -d
    | Unknown                            // getopt's '?'

  /** `struct serveropts` together with the global `debug_mode`. */
  datatype ServerOpts = ServerOpts(
    listenPort: int,
    threadPool: bool,
    maxConnections: int,
    maxThreads: int,
    addr: seq<byte>,
    debug: bool)

  /** What `main` starts from: the zeroed struct and `debug_mode` 0. */
  const Defaults: ServerOpts := ServerOpts(0, false, 0, 0, [], false)

  /** An argument handed to the program is a C string. */
  predicate WellFormed(o: ServerOption) {
    o.ListenAddress? && o.addr.Given? ==> IsCText(o.addr.value)
  }

  predicate AllWellFormed(opts: seq<ServerOption>) {
    forall i :: 0 <= i < |opts| ==> WellFormed(opts[i])
  }

  /** The check one option has to pass. */
  function CheckOption(o: ServerOption): (c: Check)
    requires WellFormed(o)
    ensures o.ListenAddress? ==> (c == Pass <==> o.addr.Given? && |o.addr.value| < MaxAddrLen)
    ensures o.ListenPort? ==> (c == Pass <==> o.port.Given? && 1 <= o.port.value <= MaxPort)
    ensures o.Threads? ==> (c == Pass <==> o.threads.Given? && 1 <= o.threads.value <= MaxThreads)
    ensures o.Connections? ==> (c == Pass <==> o.conns.Given? && 1 <= o.conns.value <= MaxConnections)
    ensures o.ListenPort? && o.port.Given? && o.port.value == 0 ==> c == Fail(NumberFlawed('p'))
    ensures o.ListenPort? && o.port.Given? && (o.port.value < 0 || MaxPort < o.port.value) ==>
      c == Fail(NumberOutOfRange('p'))
    ensures o.ThreadPool? || o.Debug? ==> c == Pass
    ensures o.Unknown? ==> c == Fail(InvalidOption)
  {
    match o
    case ListenAddress(Absent) => Fail(MissingArgument)
    case ListenAddress(Given(s)) => AddressVerdict(s)
    case ListenPort(Absent) => Fail(MissingArgument)
    case ListenPort(Given(v)) => NumberVerdict(v, MaxPort, 'p')
    case Threads(Absent) => Fail(MissingArgument)
    case Threads(Given(v)) => NumberVerdict(v, MaxThreads, 't')
    case Connections(Absent) => Fail(MissingArgument)
    case Connections(Given(v)) => NumberVerdict(v, MaxConnections, 'l')
    case ThreadPool => Pass
    case Debug => Pass
    case Unknown => Fail(InvalidOption)
  }

  /** What a passing option stores. */
  function Record(o: ServerOption, acc: ServerOpts): ServerOpts
    requires WellFormed(o) && CheckOption(o) == Pass
  {
    match o
    case ListenAddress(s) => acc.(addr := s.value)
    case ListenPort(v) => acc.(listenPort := v.value)
    case Threads(v) => acc.(maxThreads := v.value)
    case Connections(v) => acc.(maxConnections := v.value)
    case ThreadPool => acc.(threadPool := true)
    case Debug => acc.(debug := true)
  }

  /** Every stored value lies in the range its check allows, 0 meaning unset. */
  predicate InBounds(s: ServerOpts) {
    && 0 <= s.listenPort <= MaxPort
    && 0 <= s.maxThreads <= MaxThreads
    && 0 <= s.maxConnections <= MaxConnections
    && |s.addr| < MaxAddrLen
  }

  /** The four settings an option with an argument can set. */
  datatype Setting = AddrSetting | PortSetting | ThreadsSetting | ConnsSetting

  predicate Sets(o: ServerOption, f: Setting) {
    match f
    case AddrSetting => o.ListenAddress?
    case PortSetting => o.ListenPort?
    case ThreadsSetting => o.Threads?
    case ConnsSetting => o.Connections?
  }

  /** Option `i` is the last one that sets `f`. */
  predicate LastSetter(opts: seq<ServerOption>, i: int, f: Setting) {
    && 0 <= i < |opts|
    && Sets(opts[i], f)
    && forall j :: i < j < |opts| ==> !Sets(opts[j], f)
  }

  predicate Unset(opts: seq<ServerOption>, f: Setting) {
    forall j :: 0 <= j < |opts| ==> !Sets(opts[j], f)
  }

  /** The option that stores `f`'s value as it stands in `s`. */
  function Setter(s: ServerOpts, f: Setting): ServerOption {
    match f
    case AddrSetting => ListenAddress(Given(s.addr))
    case PortSetting => ListenPort(Given(s.listenPort))
    case ThreadsSetting => Threads(Given(s.maxThreads))
    case ConnsSetting => Connections(Given(s.maxConnections))
  }

  /** Where getopt's loop ends. */
  datatype Outcome = Accepted(opts: ServerOpts) | Refused(why: Refusal)

  /** Option `i` is the first that fails, and fails for `why`. */
  predicate FirstFailure(opts: seq<ServerOption>, i: int, why: Refusal)
    requires AllWellFormed(opts)
  {
    && 0 <= i < |opts|
    && CheckOption(opts[i]) == Fail(why)
    && forall j :: 0 <= j < i ==> CheckOption(opts[j]) == Pass
  }

  /** The getopt loop from `acc` on. */
  function Parse(opts: seq<ServerOption>, acc: ServerOpts): (r: Outcome)
    requires AllWellFormed(opts)
    // 1 exactly when every option passes its check
    ensures r.Accepted? <==> forall i :: 0 <= i < |opts| ==> CheckOption(opts[i]) == Pass
    // otherwise the reason is that of the first option that fails
    ensures r.Refused? ==> exists i :: FirstFailure(opts, i, r.why)
    ensures r.Accepted? && InBounds(acc) ==> InBounds(r.opts)
    ensures r.Accepted? ==> (r.opts.threadPool <==> acc.threadPool || ThreadPool in opts)
    ensures r.Accepted? ==> (r.opts.debug <==> acc.debug || Debug in opts)
    decreases |opts|
  {
    if opts == [] then Accepted(acc)
    else
      match CheckOption(opts[0])
      case Fail(why) =>
        assert FirstFailure(opts, 0, why);
        Refused(why)
      case Pass =>
        var next := Record(opts[0], acc);
        var r := Parse(opts[1..], next);
        assert forall i :: 1 <= i < |opts| ==> opts[i] == opts[1..][i - 1];
        assert r.Refused? ==> exists i :: FirstFailure(opts, i, r.why) by {
          if r.Refused? {
            var k :| FirstFailure(opts[1..], k, r.why);
            assert FirstFailure(opts, k + 1, r.why);
          }
        }
        assert opts == [opts[0]] + opts[1..];
        r
  }

  /** `getsrvopts`: parse from the defaults `main` sets up. */
  function GetServerOptions(opts: seq<ServerOption>): (r: Outcome)
    requires AllWellFormed(opts)
    ensures r.Accepted? <==> forall i :: 0 <= i < |opts| ==> CheckOption(opts[i]) == Pass
    ensures r.Refused? ==> exists i :: FirstFailure(opts, i, r.why)
    ensures r.Accepted? ==> InBounds(r.opts)
    ensures r.Accepted? ==> (r.opts.threadPool <==> ThreadPool in opts) && (r.opts.debug <==> Debug in opts)
  {
    Parse(opts, Defaults)
  }

  /** Of several options setting the same value, the last one wins. */
  lemma {:induction false} LastOptionWins(opts: seq<ServerOption>, acc: ServerOpts, i: int, f: Setting)
    requires AllWellFormed(opts) && Parse(opts, acc).Accepted? && LastSetter(opts, i, f)
    ensures opts[i] == Setter(Parse(opts, acc).opts, f)
    decreases |opts|
  {
    var next := Record(opts[0], acc);
    assert forall k :: 1 <= k < |opts| ==> opts[k] == opts[1..][k - 1];
    if i == 0 {
      assert Unset(opts[1..], f);
      UnsetKeepsStart(opts[1..], next, f);
    } else {
      assert LastSetter(opts[1..], i - 1, f);
      LastOptionWins(opts[1..], next, i - 1, f);
    }
  }

  /** A value no option sets keeps what it started with. */
  lemma {:induction false} UnsetKeepsStart(opts: seq<ServerOption>, acc: ServerOpts, f: Setting)
    requires AllWellFormed(opts) && Parse(opts, acc).Accepted? && Unset(opts, f)
    ensures Setter(Parse(opts, acc).opts, f) == Setter(acc, f)
    decreases |opts|
  {
    if opts != [] {
      assert !Sets(opts[0], f);
      assert forall k :: 1 <= k < |opts| ==> opts[k] == opts[1..][k - 1];
      UnsetKeepsStart(opts[1..], Record(opts[0], acc), f);
    }
  }
}

=== FILE: server_session.dfy ===
/**
 * The log side of one server connection (server.h), as sequential steps.
 * The inbound duty appends what the client sent to the shared log; the
 * outbound duty first sends the whole log, then keeps a cursor (`sendDelta`)
 * and, at each wake-up, sends what lies between the cursor and `end`.
 * Reads and writes on the socket are given as their results.
 */
module ServerSession {
  import opened Limits
  import opened MessageLog
  import opened LogLaws
  import opened CStrings

  /** The shared server log, created with MSG_LOG_LEN (server.c:86). */
  predicate ServerLog(log: Log) {
    Valid(log) && Capacity(log) == MsgLogLen
  }

  datatype Inbound = Disconnected | Appended(log: Log)

  /** `receiveClientMessage`: `got` is what read() returned into the MSG_LEN
      buffer `message`. Nothing positive ends the connection and leaves the
      log alone; otherwise exactly the `got` bytes read are appended. */
  function ReceiveClientMessage(log: Log, got: int, message: seq<byte>): (r: Inbound)
    requires ServerLog(log) && |message| == MsgLen && got <= MsgLen
    requires got > 0 ==> WriteDefined(log, got)
    ensures r.Disconnected? <==> got <= 0
    ensures r.Appended? ==> ServerLog(r.log) && Span(r.log, log.end) == message[..got]
  {
    if got <= 0 then Disconnected
    else
      var r := Write(log, message, got).log;
      AppendedSpan(log, message, got, log.end);
      Appended(r)
  }

  datatype Greeting = Greeting(history: seq<byte>, cursor: nat)

  /** The bytes `sendWholeLog` hands to strlen: the log copied into a zeroed
      MSG_LOG_LEN buffer whose last byte is then forced to NUL. */
  function Snapshot(log: Log, zeros: seq<byte>): (shown: seq<byte>)
    requires ServerLog(log) && |zeros| == MsgLogLen
  {
    Read(log, zeros, MsgLogLen).buf[MsgLogLen - 1 := 0]
  }

  /** That buffer holds the queue, cut one byte short of its size, followed
      by a NUL. */
  lemma SnapshotHolds(log: Log, zeros: seq<byte>)
    requires ServerLog(log) && |zeros| == MsgLogLen
    requires forall i :: 0 <= i < |zeros| ==> zeros[i] == 0
    ensures
      var k := Min(|Content(log)|, MsgLogLen - 1);
      var shown := Snapshot(log, zeros);
      k < |shown| && shown[..k] == Content(log)[..k] && shown[k] == 0
  {
    var c := Read(log, zeros, MsgLogLen);
    var k := Min(|Content(log)|, MsgLogLen - 1);
    if log.begin != log.end {
      assert c.buf[..k] == Content(log)[..k];
    }
  }

  /** The start of `sendThread`: `sendWholeLog` sends the snapshot as a C
      string; then the cursor is set to the log's `end`. */
  function Connect(log: Log): (g: Greeting)
    requires ServerLog(log)
    // the history is the queue, cut one byte short of the buffer and at its first NUL
    ensures g.history == CString(Content(log)[..Min(|Content(log)|, MsgLogLen - 1)])
    // delivery resumes right after the history: nothing is unread
    ensures g.cursor == log.end && Span(log, g.cursor) == []
  {
    var zeros := seq(MsgLogLen, _ => 0 as byte);
    var shown := Snapshot(log, zeros);
    SnapshotHolds(log, zeros);
    var k := Min(|Content(log)|, MsgLogLen - 1);
    CStringStopsAtNul(shown, Content(log)[..k]);
    Greeting(CString(shown), log.end)
  }

  datatype Delivery = Stopped | Delivered(sent: seq<byte>, cursor: nat)

  /** `msglen`: the count `readDelta` returns when asked, with count 0, for
      what lies between the cursor and `end`. It is every unread byte, or,
      when they cross `dataend`, only those stored from `data` on. */
  function Outgoing(log: Log, cursor: nat): (k: nat)
    requires Valid(log) && cursor <= |log.data|
    ensures k <= |Span(log, cursor)|
    ensures k == 0 <==> Span(log, cursor) == []
  {
    var unread := |Span(log, cursor)|;
    if CopyCrosses(log, cursor, 0) then unread - (|log.data| - cursor) else unread
  }

  /** `Outgoing` is what `readDelta` returns, whatever the buffer held. */
  lemma OutgoingIsReadDelta(log: Log, cursor: nat, scratch: seq<byte>)
    requires Valid(log) && cursor <= |log.data|
    requires 0 < |scratch| && |Span(log, cursor)| <= |scratch|
    ensures ReadDelta(log, scratch, 0, cursor).ret == Outgoing(log, cursor)
  {
  }

  /** One pass of `sendThread`'s loop after a wake-up: `readDelta` with count
      0 from the cursor into the MSG_LEN buffer `scratch`, then, if it
      returned a positive count `msglen`, write() of `msglen` bytes, whose
      result is `wrote`: -1 on failure, otherwise the number of bytes it
      sent, at most `msglen`. A positive result moves the cursor to `end`,
      whatever part of the `msglen` bytes it covered; anything else ends the
      loop. */
  function Deliver(log: Log, cursor: nat, scratch: seq<byte>, wrote: int): (d: Delivery)
    requires ServerLog(log) && cursor <= |log.data| && |scratch| == MsgLen
    requires |Span(log, cursor)| <= MsgLen
    requires Outgoing(log, cursor) > 0 ==> wrote <= Outgoing(log, cursor)
    ensures d.Delivered? <==> Span(log, cursor) != [] && wrote > 0
    // the leading `wrote` unread bytes go out
    ensures d.Delivered? ==> |d.sent| == wrote && d.sent == Span(log, cursor)[..wrote]
    // and the cursor passes every unread byte, sent or not
    ensures d.Delivered? ==> d.cursor == log.end && Span(log, d.cursor) == []
  {
    var c := ReadDelta(log, scratch, 0, cursor);
    OutgoingIsReadDelta(log, cursor, scratch);
    if c.ret > 0 && wrote > 0 then
      Delivered(c.buf[..wrote], log.end)
    else
      Stopped
  }

  /** A delivery after some pushes made from the cursor left at `end`: the
      bytes sent are the leading bytes of the pushed messages laid end to
      end. A write of all `msglen` bytes sends every message only when they
      do not cross `dataend`. */
  lemma DeliverAfterPushes(log: Log, msgs: seq<seq<byte>>, scratch: seq<byte>, wrote: int)
    requires ServerLog(log) && PushesDefined(log, msgs)
    requires forall i :: 0 <= i < |msgs| ==> |msgs[i]| <= MsgLen
    requires 0 < |Concat(msgs)| <= MsgLen && |scratch| == MsgLen
    requires 0 < wrote <= Outgoing(PushAll(log, msgs), log.end)
    ensures Span(PushAll(log, msgs), log.end) == Concat(msgs)
    ensures
      var now := PushAll(log, msgs);
      Deliver(now, log.end, scratch, wrote) == Delivered(Concat(msgs)[..wrote], now.end)
    ensures
      var now := PushAll(log, msgs);
      (!CopyCrosses(now, log.end, 0) || log.end == |now.data|) && wrote == Outgoing(now, log.end) ==>
        Deliver(now, log.end, scratch, wrote) == Delivered(Concat(msgs), now.end)
    ensures
      var now := PushAll(log, msgs);
      log.end < |now.data| && CopyCrosses(now, log.end, 0) ==> Outgoing(now, log.end) < |Concat(msgs)|
  {
    NoMissedBytes(log, msgs, log.end);
  }

  /** `Deliver` with `readDelta` returning the count it copied: `msglen` is
      every unread byte. */
  function DeliverIntended(log: Log, cursor: nat, scratch: seq<byte>, wrote: int): (d: Delivery)
    requires ServerLog(log) && cursor <= |log.data| && |scratch| == MsgLen
    requires |Span(log, cursor)| <= MsgLen
    requires Span(log, cursor) != [] ==> wrote <= |Span(log, cursor)|
    ensures d.Delivered? <==> Span(log, cursor) != [] && wrote > 0
    ensures d.Delivered? ==> |d.sent| == wrote && d.sent == Span(log, cursor)[..wrote]
    ensures d.Delivered? ==> d.cursor == log.end && Span(log, d.cursor) == []
    // a write of all `msglen` bytes sends every unread byte
    ensures d.Delivered? && wrote == |Span(log, cursor)| ==> d.sent == Span(log, cursor)
  {
    var c := ReadDeltaIntended(log, scratch, 0, cursor);
    if c.ret > 0 && wrote > 0 then
      Delivered(c.buf[..wrote], log.end)
    else
      Stopped
  }

  /** With that count, a delivery after some pushes whose write() sends all
      `msglen` bytes sends exactly the pushed messages laid end to end: no
      byte is missed, none is sent twice. A shorter write sends their
      leading bytes. */
  lemma DeliverAfterPushesIntended(log: Log, msgs: seq<seq<byte>>, scratch: seq<byte>, wrote: int)
    requires ServerLog(log) && PushesDefined(log, msgs)
    requires forall i :: 0 <= i < |msgs| ==> |msgs[i]| <= MsgLen
    requires 0 < |Concat(msgs)| <= MsgLen && |scratch| == MsgLen
    requires 0 < wrote <= |Concat(msgs)|
    ensures Span(PushAll(log, msgs), log.end) == Concat(msgs)
    ensures
      var now := PushAll(log, msgs);
      DeliverIntended(now, log.end, scratch, wrote) == Delivered(Concat(msgs)[..wrote], now.end)
    ensures
      var now := PushAll(log, msgs);
      wrote == |Concat(msgs)| ==> DeliverIntended(now, log.end, scratch, wrote) == Delivered(Concat(msgs), now.end)
  {
    NoMissedBytes(log, msgs, log.end);
  }
}
